=== FILE: README.md ===
# Music-production stores and playback engine in Dafny

This project models the sequential core of a browser composition tool:

- **The track/note store** (`src/stores/tracks.js`). It holds an ordered list of tracks. Each track holds an ordered list of notes. The store also holds the selected track id, the tempo and a playing flag. Its actions are add, update and delete for tracks and for notes, plus project load. Each action is a pure function from the old store to the new one. `addTrack` and `addNote` fill missing fields with defaults: `||` for string, array and object fields, `??` for numeric and boolean fields. `loadProject` uses `||` on the numeric tempo, so a tempo of 0 also falls back to 120. Generated ids (`Date.now()`) are an explicit `now: nat` parameter.
- **The playback engine** (`src/composables/useAudio.js`). It is modelled over an abstract audio library. Every synth, channel and main output the engine creates lives in a heap, addressed by its index, with a `disposed` flag. The transport is a run flag, a tempo and a list of pending events in registration order. `createInstrument`, `initAudio`, `setupTrack`, `play`, `stop` and `dispose` are functions over this state. `play` is also compared with an independent reference schedule: the unmuted tracks in order, each contributing its notes in order.
- **The UI store** (`src/stores/ui.js`). It holds the zoom, clamped into [0.5, 3], and two boolean toggles.

All numbers are exact `real`s. Modules: `Common` (optional values, JavaScript defaulting, decimal rendering), `Keyed` (find, findIndex and filter by id), `Tracks` and `TracksProps`, `Ui`, `Audio` and `AudioProps`.

Behaviour of the code that the model keeps as written:
- `setupTrack` always disposes a track's synth and channel and creates new ones, even when the instrument is unchanged (`AudioProps.SetupTrackNeverReuses`).
- Note times are handed to the library as `start / 4` and `duration / 4`, read as `'<x>n'` notation values. Only those values are modelled.
- `play` cancels the pending events but does not stop the transport before scheduling and starting it.
- `dispose` does not stop the transport. It also does not clear the synth and channel maps or the main output.
- `initAudio` awaits the library's start-up and has no error branch.
- Velocities are not validated or clamped. They are divided by 127 as given.

## Model

| member | source | states |
|---|---|---|
| Common.Coalesce | src/stores/tracks.js:25-28 | `a ?? d` gives the present value, even 0 or false, and the default only when the key is missing |
| Common.OrString | src/stores/tracks.js:20-23 | a logical-or default on a string gives the default when the key is missing or holds "", and the value otherwise |
| Common.OrNumber | src/stores/tracks.js:86 | a logical-or default on a number gives the default when the key is missing or holds 0, and the value otherwise |
| Common.Decimal | src/stores/tracks.js:20-21 | `${n}` of a count or clock value is a non-empty string of digits, with no leading zero unless it is "0" |
| Common.DecimalRoundTrip | src/stores/tracks.js:20-21 | reading the rendered digits back gives the original number |
| Common.PrefixedDecimalInjective | src/stores/tracks.js:20 | `track-${m}` equals `track-${n}` exactly when m equals n |
| Keyed.FirstIndex | src/stores/tracks.js:42 | `findIndex` returns -1 exactly when no record has the id; otherwise it returns the first index with that id |
| Keyed.Find | src/stores/tracks.js:53 | `find` returns nothing exactly when no record has the id; otherwise it returns the first record with that id |
| Keyed.RemoveKey | src/stores/tracks.js:49 | a record survives the filter exactly when it was present and its id differs |
| Keyed.RemoveKeyMultiplicity | src/stores/tracks.js:49 | the filter keeps every record without the id exactly as often as it occurred, and none with it |
| Keyed.RemoveKeyIdempotent | src/stores/tracks.js:49 | filtering by id twice gives the same result as filtering once |
| Keyed.RemoveKeyAppend | src/stores/tracks.js:49 | filtering distributes over concatenation, so the survivors keep their relative order |
| Keyed.RemoveKeyLength | src/stores/tracks.js:48-50 | the length drops by exactly the number of records carrying the id |
| Keyed.RemoveAbsentKey | src/stores/tracks.js:49 | filtering an id that no record carries returns the list unchanged |
| Tracks.SelectedTrack | src/stores/tracks.js:11-13 | a track is selected exactly when some track has the selected id; the result is the first such track |
| Tracks.AddTrack | src/stores/tracks.js:15-39 | appends exactly one track, keeps every earlier track, returns the new track's non-empty id and leaves the rest of the store alone |
| Tracks.MergeTrack | src/stores/tracks.js:44 | merging no keys is the identity; without an `id` key the id is kept |
| Tracks.UpdateTrack | src/stores/tracks.js:41-46 | an unknown id changes nothing; otherwise only the first track with the id becomes the merge, with the same length and every other index unchanged |
| Tracks.DeleteTrack | src/stores/tracks.js:48-50 | the track list becomes the id filter of the old one: tracks with the id disappear, the others survive, and the length drops by their count |
| TracksProps.DeleteTrackMultiplicity | src/stores/tracks.js:49 | after deletion, every track without the id occurs exactly as often as before, and none with it remains |
| TracksProps.DeleteTrackAppend | src/stores/tracks.js:49 | deletion works piecewise on any split of the track list, so the surviving tracks keep their relative order |
| Tracks.AddNote | src/stores/tracks.js:52-66 | a missing track gives no id and no change; otherwise exactly one note is appended to the first matching track only, and its non-empty id is returned |
| Tracks.MergeNote | src/stores/tracks.js:74 | merging no keys is the identity; without an `id` key the note id is kept |
| Tracks.UpdateNote | src/stores/tracks.js:68-76 | a missing track or note changes nothing; otherwise only the first matching note of the first matching track changes |
| Tracks.DeleteNote | src/stores/tracks.js:78-82 | a missing track changes nothing; otherwise the first matching track's notes become their id filter: notes with the id disappear, every other note keeps its multiplicity and order, the length drops by their count, and every other track is untouched |
| Tracks.LoadProject | src/stores/tracks.js:84-87 | the tracks are replaced, by `[]` when absent; the tempo becomes the given one, or 120 when it is absent or 0, and is never 0; the selection is kept |
| TracksProps.AddTrackDefaults | src/stores/tracks.js:19-35 | the defaults are `track-<now>`, `Track <n+1>`, midi, synth, -10, 0, false, false, `[]` and zero effects; a given non-empty id, name, type or instrument and a given notes array or effects object are kept; `??` keeps an explicit 0 or false, `||` replaces an empty string |
| TracksProps.AddTrackColor | src/stores/tracks.js:16-17 | without a colour the track gets `palette[len % 5]`, always one of the five palette entries |
| TracksProps.GeneratedTrackIdsCollideOnSameInstant | src/stores/tracks.js:20 | two generated track ids are equal exactly when they were taken at the same clock value |
| TracksProps.AddTrackThenDelete | src/stores/tracks.js:15-50 | deleting the id `addTrack` returned restores the store when that id was not already in use |
| TracksProps.AddTrackThenSelect | src/stores/tracks.js:11-38 | selecting the returned id selects the new track when that id was not already in use |
| TracksProps.MergeTrackKeys | src/stores/tracks.js:44 | for each of the eleven track keys, one absent from the updates keeps its old value and one present replaces it, even with 0, false or "" |
| TracksProps.MergeNoteKeys | src/stores/tracks.js:74 | for each of the five note keys, one absent from the updates keeps its old value and one present replaces it, even with 0 or "" |
| TracksProps.MergeTrackOverlay | src/stores/tracks.js:44 | two successive merges equal one merge of the overlaid updates |
| TracksProps.UpdateTrackIdempotent | src/stores/tracks.js:41-46 | an update that keeps the id gives the same store when repeated |
| TracksProps.UpdateTrackRenameReachesNextTrack | src/stores/tracks.js:41-46 | an update that renames is not idempotent: on two tracks sharing an id, the second call changes the second track |
| TracksProps.DeleteTrackIdempotent | src/stores/tracks.js:48-50 | deleting twice gives the same store as deleting once |
| TracksProps.AddNoteDefaults | src/stores/tracks.js:56-62 | the note defaults are `note-<now>`, C4, 0, 1 and 100; a given non-empty id or pitch is kept; `??` keeps an explicit 0 |
| TracksProps.AddNoteThenDelete | src/stores/tracks.js:52-82 | deleting the note `addNote` just added restores the store when its id was not already in use on that track |
| TracksProps.UpdateNoteIdempotent | src/stores/tracks.js:68-76 | an update that keeps the note id gives the same store when repeated |
| TracksProps.DeleteNoteIdempotent | src/stores/tracks.js:78-82 | deleting a note twice gives the same store as deleting it once |
| TracksProps.LoadProjectReplaces | src/stores/tracks.js:84-87 | the tracks and tempo after a load depend only on the project data, and reloading the same data changes nothing |
| Ui.SetZoom | src/stores/ui.js:9-11 | zoom always lies in [0.5, 3]; the level is stored exactly when it lies in range; below the range gives 0.5 and above it gives 3; the toggles are untouched |
| Ui.ToggleMixer | src/stores/ui.js:13-15 | flips `showMixer` and leaves the other two fields alone |
| Ui.ToggleMobileMenu | src/stores/ui.js:17-19 | flips `mobileMenuOpen` and leaves the other two fields alone |
| Ui.InitialUiInRange | src/stores/ui.js:5-7 | the initial zoom 1 is in range, so setting it again changes nothing |
| Ui.SetZoomIdempotent | src/stores/ui.js:9-11 | setting a level twice gives the same state as setting it once, and re-setting the current zoom changes nothing |
| Ui.SetZoomLastWins | src/stores/ui.js:9-11 | of two zoom calls only the last one matters |
| Ui.TogglesInvolutive | src/stores/ui.js:13-19 | each toggle applied twice restores the state, and the two toggles commute |
| Audio.CreateInstrument | src/composables/useAudio.js:16-36 | the preset maps back to its tag for piano, synth and bass, and to no tag for any other tag; only bass is monophonic |
| Audio.InitAudio | src/composables/useAudio.js:9-14 | afterwards there is always a main output; an existing one is kept and nothing changes; otherwise exactly one fresh live gain node is added |
| Audio.SetupTrack | src/composables/useAudio.js:38-50 | disposes the old synth and channel of the track id, installs fresh live ones carrying the instrument preset, volume, pan and mute, and leaves other ids, other objects and the transport unchanged |
| Audio.TriggerOf | src/composables/useAudio.js:63-65 | the values are start/4, duration/4 and velocity/127; a velocity in [0,127] maps into [0,1] |
| Audio.NoteEvents | src/composables/useAudio.js:62-69 | one event per note, in note order, each bound to the track's synth |
| Audio.ScheduleTrack | src/composables/useAudio.js:58-70 | a muted track changes nothing; an unmuted one is set up by `setupTrack` (so its old pair is disposed and the new channel carries its volume, pan and mute) and appends exactly one event per note, in note order, each bound to the synth just installed for the track's id; run flag, tempo and main output are unchanged |
| Audio.ScheduleTracks | src/composables/useAudio.js:57-71 | the pending triggers grow by exactly the reference schedule of the tracks |
| Audio.Play | src/composables/useAudio.js:52-74 | afterwards the transport runs at the given tempo, and the pending triggers are exactly the reference schedule, with any earlier pending events gone |
| Audio.Stop | src/composables/useAudio.js:76-79 | the transport is stopped with nothing pending, and nothing else changes |
| Audio.Dispose | src/composables/useAudio.js:81-85 | every stored synth, channel and main output is disposed; nothing else is disposed and the maps and the transport are kept |
| AudioProps.CreateInstrumentDistinguishesTags | src/composables/useAudio.js:16-36 | the preset of piano, synth or bass is produced by that tag and by no other tag |
| AudioProps.ScheduleAppend | src/composables/useAudio.js:57-71 | the schedule of a concatenation is the concatenation of the schedules, so events follow track order |
| AudioProps.ScheduleOneTrack | src/composables/useAudio.js:62-69 | one track contributes its notes' triggers in note order, or nothing when muted |
| AudioProps.MutedTrackContributesNothing | src/composables/useAudio.js:58 | inserting a muted track anywhere leaves the schedule unchanged |
| AudioProps.ScheduleLength | src/composables/useAudio.js:57-71 | the schedule holds exactly the number of notes on unmuted tracks |
| AudioProps.PlayDependsOnlyOnTracks | src/composables/useAudio.js:54-55 | the pending triggers after `play` depend on the tracks alone, not on earlier events or the tempo |
| AudioProps.PlayTwice | src/composables/useAudio.js:55 | a second `play` of the same tracks gives the same pending triggers, with no accumulation |
| AudioProps.StopIdempotent | src/composables/useAudio.js:76-79 | stopping twice gives the same state as stopping once; stop after play leaves nothing pending |
| AudioProps.InitAudioIdempotent | src/composables/useAudio.js:11-13 | a second `initAudio` changes nothing, and after any `play` a further `initAudio` changes nothing |
| AudioProps.DisposeReleasesEverything | src/composables/useAudio.js:81-85 | after `dispose` no stored synth, channel or main output is live, and disposing again changes nothing |
| AudioProps.InitAudioAfterDisposeKeepsDeadOutput | src/composables/useAudio.js:81-85 | the main output stays set after `dispose`, so a later `initAudio` keeps the disposed output |
| AudioProps.InitialEngineValid | src/composables/useAudio.js:5-7 | the empty engine is well formed |
| AudioProps.SetupTrackValid | src/composables/useAudio.js:38-50 | `setupTrack` keeps every stored handle well typed and unshared between ids |
| AudioProps.OperationsPreserveValid | src/composables/useAudio.js:9-85 | `initAudio`, `play`, `stop` and `dispose` keep the engine well formed |
| AudioProps.SetupTrackSparesOtherIds | src/composables/useAudio.js:39-40 | setting up one id leaves the synth and channel of every other id exactly as they were |
| AudioProps.PlayBacksUnmutedTracks | src/composables/useAudio.js:57-60 | after `play` every unmuted track's id has a live synth and a live channel |
| AudioProps.PlaySparesMutedTracks | src/composables/useAudio.js:58 | an id that only muted tracks carry keeps the same synth and channel, in the same state |
| AudioProps.SetupTrackNeverReuses | src/composables/useAudio.js:38-50 | a second setup of the same track disposes the first synth and channel and installs new ones |
| AudioProps.PlayOneTrackUsesItsSynth | src/composables/useAudio.js:59-69 | playing one unmuted track registers exactly its notes' events, all bound to the live synth installed for its id, which carries the preset of the track's instrument, and the track has a live channel carrying its volume, pan and mute |
| AudioProps.SharedIdOrphansEarlierEvents | src/composables/useAudio.js:59-69 | when two unmuted tracks share an id, the first track's events hold a disposed synth |
| AudioProps.PlayEventsLiveWhenIdsDistinct | src/composables/useAudio.js:57-69 | when unmuted track ids are distinct, every event holds a live synth |

## Left out

- Library start-up (`Tone.start()`) and `async`/`await`: `initAudio` and `play` are single atomic steps.
- Event dispatch and the transport's position: the transport is only a run flag, a tempo and a pending list in registration order. Which pending event fires when, and what `'<x>n'` notation means, belong to the audio library.
- Envelope and oscillator settings beyond voicing and wave shape. They are tuning constants of the library's synths.
- Vue/Pinia reactivity and the `onUnmounted` hook (src/composables/useAudio.js:87). They are framework plumbing.
- The `api/` handlers, `useTranscription.js`, `useGeneration.js` and `tailwind.config.js`. They are network calls, thin request wrappers and styling.
- `isPlaying` and `selectedNoteId` appear only in the initial state. The store has no action that changes them.
- JavaScript values outside the typed fields are not modelled: a key present with value `undefined`, extra keys in `updates`, non-string ids, and NaN (falsy for `||`; `Math.min`/`Math.max` would return it).
- Tracks.AddNote / Tracks.UpdateNote / Tracks.DeleteNote: track records and notes arrays are modelled as values. In the source `addNote` pushes and `updateNote` assigns into the notes array of the track `find` returned, and `deleteNote` reassigns `notes` on that track object. `addTrack` (`notes: trackData.notes || []`) keeps the caller's notes array, and `loadProject` keeps the caller's track list as is. So when two tracks share one notes array, or one track object appears twice in a loaded list, every sharer sees the change. The model changes the first matching track only.
- Loaded tracks are complete records. The source accepts any objects for `projectData.tracks`.
- One engine is modelled. The library's transport is a process-wide singleton shared by every `useAudio` instance.
- Audio.DisposeNode: disposing a handle that is not in the heap is a no-op. Under `Audio.Valid`, which every operation preserves, that case cannot arise.
- AudioProps.PlayTwice: states equality of the pending triggers rather than the pending events, because every `play` sets the tracks up again and the events capture the newly allocated synth handles.
- Audio.Play: the pending list is compared with the reference schedule on triggers (pitch, time, duration, velocity). Which synth each event holds is stated per track by `Audio.ScheduleTrack`: the events are bound to the synth just installed for the track's id. At the level of `play` this is stated for a single track (`AudioProps.PlayOneTrackUsesItsSynth`), and for many tracks only as liveness (`AudioProps.PlayEventsLiveWhenIdsDistinct`, `AudioProps.SharedIdOrphansEarlierEvents`).

=== FILE: audio.dfy ===
/** The playback engine (src/composables/useAudio.js) over an abstract audio
    library. Every library object the engine creates (synth, channel, main gain
    output) lives in `heap` and is addressed by its index there; disposing an
    object sets its `disposed` flag. The transport is a run flag, a tempo and
    the list of pending one-shot events in registration order. */
module Audio {
  import opened Common
  import opened Tracks

  // ---------------------------------------------------------------------------
  // Instrument presets

  datatype Voicing = Polyphonic | Monophonic

  /** The oscillator shape a preset names; `LibraryDefault` is the library's
      own default voice, used when `createInstrument` configures no oscillator. */
  datatype Wave = Sine | Triangle | Sawtooth | LibraryDefault

  datatype Preset = Preset(voicing: Voicing, wave: Wave)

  const KnownTags: set<string> := {"piano", "synth", "bass"}

  /** The instrument tag a preset was made for, if it was made for a named one. */
  function PresetTag(p: Preset): Option<string> {
    match p.wave
    case Sine => Some("piano")
    case Triangle => Some("synth")
    case Sawtooth => Some("bass")
    case LibraryDefault => None
  }

  /** `createInstrument`: the preset for an instrument tag; any tag other than
      the three named ones gets the default polyphonic voice. */
  function CreateInstrument(tag: string): (p: Preset)
    ensures PresetTag(p) == (if tag in KnownTags then Some(tag) else None)
    ensures p.voicing == Monophonic <==> tag == "bass"
  {
    if tag == "piano" then Preset(Polyphonic, Sine)
    else if tag == "synth" then Preset(Polyphonic, Triangle)
    else if tag == "bass" then Preset(Monophonic, Sawtooth)
    else Preset(Polyphonic, LibraryDefault)
  }

  // ---------------------------------------------------------------------------
  // Library objects, transport and engine state

  datatype NodeKind =
    | SynthNode(preset: Preset, channel: nat)
      /** A synth chained into the channel with handle `channel`. */
    | ChannelNode(volume: real, pan: real, mute: bool, output: Option<nat>)
      /** A mix channel chained into the main output (None: there was none). */
    | GainNode(gain: real)

  datatype Node = Node(kind: NodeKind, disposed: bool)

  /** What one scheduled callback plays: the pitch, the time and duration
      values handed to the library (in the library's `'<x>n'` notation, whose
      meaning belongs to the library), and the velocity scaled into [0, 1]. */
  datatype Trigger = Trigger(pitch: string, time: real, duration: real, velocity: real)

  /** A pending callback: the synth it captured and what it plays. */
  datatype Event = Event(synth: nat, trigger: Trigger)

  datatype Transport = Transport(running: bool, bpm: real, pending: seq<Event>)

  datatype Engine = Engine(
    heap: seq<Node>,
    synths: map<string, nat>,
    channels: map<string, nat>,
    mainOutput: Option<nat>,
    transport: Transport)

  const InitialEngine := Engine([], map[], map[], None, Transport(false, 120.0, []))

  /** Handle h names an object that exists and has not been disposed. */
  predicate Live(heap: seq<Node>, h: nat) {
    h < |heap| && !heap[h].disposed
  }

  /** Every stored handle names an object of the right kind. */
  predicate HandlesTyped(e: Engine) {
    && (forall k :: k in e.synths ==> e.synths[k] < |e.heap| && e.heap[e.synths[k]].kind.SynthNode?)
    && (forall k :: k in e.channels ==> e.channels[k] < |e.heap| && e.heap[e.channels[k]].kind.ChannelNode?)
    && (e.mainOutput.Some? ==> e.mainOutput.value < |e.heap| && e.heap[e.mainOutput.value].kind.GainNode?)
  }

  /** No two track ids share a synth or a channel. */
  predicate HandlesUnshared(e: Engine) {
    && (forall k1, k2 :: k1 in e.synths && k2 in e.synths && k1 != k2 ==> e.synths[k1] != e.synths[k2])
    && (forall k1, k2 :: k1 in e.channels && k2 in e.channels && k1 != k2 ==> e.channels[k1] != e.channels[k2])
  }

  /** Every pending event captured a synth. */
  predicate EventsTyped(e: Engine) {
    forall i :: 0 <= i < |e.transport.pending| ==>
      e.transport.pending[i].synth < |e.heap| && e.heap[e.transport.pending[i].synth].kind.SynthNode?
  }

  /** Well-formedness of the engine's bookkeeping. */
  predicate Valid(e: Engine) {
    HandlesTyped(e) && HandlesUnshared(e) && EventsTyped(e)
  }

  /** `obj.dispose()` on the object with handle h. */
  function DisposeNode(heap: seq<Node>, h: nat): (r: seq<Node>)
    ensures |r| == |heap|
    ensures h < |heap| ==> r[h].disposed && r[h].kind == heap[h].kind
    ensures forall i :: 0 <= i < |heap| && i != h ==> r[i] == heap[i]
  {
    if h < |heap| then heap[h := heap[h].(disposed := true)] else heap
  }

  function Lookup(m: map<string, nat>, k: string): Option<nat> {
    if k in m then Some(m[k]) else None
  }

  // ---------------------------------------------------------------------------
  // Operations

  /** `initAudio` (after the library's start-up): creates the main output only
      when there is none. */
  function InitAudio(e: Engine): (r: Engine)
    ensures r.mainOutput.Some?
    ensures e.mainOutput.Some? ==> r == e
    ensures e.mainOutput.None? ==>
      && r.mainOutput == Some(|e.heap|)
      && |r.heap| == |e.heap| + 1 && r.heap[..|e.heap|] == e.heap
      && Live(r.heap, |e.heap|) && r.heap[|e.heap|].kind.GainNode?
      && r == e.(heap := r.heap, mainOutput := r.mainOutput)
  {
    if e.mainOutput.Some? then e
    else e.(heap := e.heap + [Node(GainNode(1.0), false)], mainOutput := Some(|e.heap|))
  }

  /** `setupTrack`: disposes the synth and the channel stored under the track's
      id, then creates a fresh synth for the track's instrument chained into a
      fresh channel carrying the track's volume, pan and mute. */
  function SetupTrack(e: Engine, t: Track): (r: Engine)
    ensures |r.heap| == |e.heap| + 2
    ensures r.synths.Keys == e.synths.Keys + {t.id} && r.channels.Keys == e.channels.Keys + {t.id}
    ensures r.synths[t.id] == |e.heap| && r.channels[t.id] == |e.heap| + 1
    ensures Live(r.heap, r.synths[t.id]) && Live(r.heap, r.channels[t.id])
    ensures r.heap[r.synths[t.id]].kind == SynthNode(CreateInstrument(t.instrument), r.channels[t.id])
    ensures r.heap[r.channels[t.id]].kind == ChannelNode(t.volume, t.pan, t.mute, e.mainOutput)
    ensures t.id in e.synths && e.synths[t.id] < |e.heap| ==> r.heap[e.synths[t.id]].disposed
    ensures t.id in e.channels && e.channels[t.id] < |e.heap| ==> r.heap[e.channels[t.id]].disposed
    ensures forall k :: k in e.synths && k != t.id ==> r.synths[k] == e.synths[k]
    ensures forall k :: k in e.channels && k != t.id ==> r.channels[k] == e.channels[k]
    ensures forall i :: 0 <= i < |e.heap| ==>
      && r.heap[i].kind == e.heap[i].kind
      && (r.heap[i].disposed <==>
            e.heap[i].disposed || Lookup(e.synths, t.id) == Some(i) || Lookup(e.channels, t.id) == Some(i))
    ensures r.transport == e.transport && r.mainOutput == e.mainOutput
  {
    var h1 := if t.id in e.synths then DisposeNode(e.heap, e.synths[t.id]) else e.heap;
    var h2 := if t.id in e.channels then DisposeNode(h1, e.channels[t.id]) else h1;
    var s := |h2|;
    var synth := Node(SynthNode(CreateInstrument(t.instrument), s + 1), false);
    var channel := Node(ChannelNode(t.volume, t.pan, t.mute, e.mainOutput), false);
    e.(heap := h2 + [synth, channel],
       synths := e.synths[t.id := s],
       channels := e.channels[t.id := s + 1])
  }

  /** The per-note transforms of `play`: start and duration divided by 4, the
      velocity divided by 127. */
  function TriggerOf(n: Note): (r: Trigger)
    ensures r.pitch == n.pitch
    ensures r.time * 4.0 == n.start && r.duration * 4.0 == n.duration
    ensures r.velocity * 127.0 == n.velocity
    ensures 0.0 <= n.velocity <= 127.0 ==> 0.0 <= r.velocity <= 1.0
  {
    Trigger(n.pitch, n.start / 4.0, n.duration / 4.0, n.velocity / 127.0)
  }

  /** One event per note, in note order, all bound to the same synth. */
  function NoteEvents(synth: nat, notes: seq<Note>): (r: seq<Event>)
    ensures |r| == |notes|
    ensures forall i :: 0 <= i < |notes| ==> r[i] == Event(synth, TriggerOf(notes[i]))
  {
    seq(|notes|, i requires 0 <= i < |notes| => Event(synth, TriggerOf(notes[i])))
  }

  /** The body of `tracks.forEach` in `play`: a muted track is skipped; any
      other track is set up and its notes are registered with the transport,
      bound to the synth just created for it. */
  function ScheduleTrack(e: Engine, t: Track): (r: Engine)
    ensures t.mute ==> r == e
    ensures !t.mute ==> r == SetupTrack(e, t).(transport := r.transport)
    ensures !t.mute ==>
      && t.id in r.synths
      && r.synths[t.id] == |e.heap|
      && r.transport.pending == e.transport.pending + NoteEvents(r.synths[t.id], t.notes)
    ensures TriggersOf(r.transport.pending)
         == TriggersOf(e.transport.pending) + (if t.mute then [] else NoteTriggers(t.notes))
    ensures r.transport.running == e.transport.running && r.transport.bpm == e.transport.bpm
    ensures r.mainOutput == e.mainOutput
    ensures |r.heap| >= |e.heap| && forall i :: 0 <= i < |e.heap| ==> r.heap[i].kind == e.heap[i].kind
  {
    if t.mute then e
    else
      var e1 := SetupTrack(e, t);
      var events := NoteEvents(e1.synths[t.id], t.notes);
      e1.(transport := e1.transport.(pending := e1.transport.pending + events))
  }

  /** `tracks.forEach(...)`: the tracks in order. */
  function ScheduleTracks(e: Engine, ts: seq<Track>): (r: Engine)
    ensures TriggersOf(r.transport.pending) == TriggersOf(e.transport.pending) + Schedule(ts)
    ensures r.transport.running == e.transport.running && r.transport.bpm == e.transport.bpm
    ensures r.mainOutput == e.mainOutput
    ensures |r.heap| >= |e.heap| && forall i :: 0 <= i < |e.heap| ==> r.heap[i].kind == e.heap[i].kind
    decreases |ts|
  {
    if |ts| == 0 then e
    else
      var e1 := ScheduleTrack(e, ts[0]);
      var head := if ts[0].mute then [] else NoteTriggers(ts[0].notes);
      assert Schedule(ts) == head + Schedule(ts[1..]);
      assert TriggersOf(e1.transport.pending) == TriggersOf(e.transport.pending) + head;
      ScheduleTracks(e1, ts[1..])
  }

  /** `play(tracks, tempo)`, as one step after `initAudio`: set the tempo, drop
      every pending event, schedule the unmuted tracks, start the transport. */
  function Play(e: Engine, ts: seq<Track>, tempo: real): (r: Engine)
    ensures r.transport.running && r.transport.bpm == tempo
    ensures TriggersOf(r.transport.pending) == Schedule(ts)
    ensures r.mainOutput.Some? && (e.mainOutput.Some? ==> r.mainOutput == e.mainOutput)
    ensures |r.heap| >= |e.heap| && forall i :: 0 <= i < |e.heap| ==> r.heap[i].kind == e.heap[i].kind
  {
    var e1 := InitAudio(e);
    var e2 := e1.(transport := e1.transport.(bpm := tempo, pending := []));
    var e3 := ScheduleTracks(e2, ts);
    e3.(transport := e3.transport.(running := true))
  }

  /** `stop`: stop the transport and drop every pending event. */
  function Stop(e: Engine): (r: Engine)
    ensures !r.transport.running && r.transport.pending == []
    ensures r.transport.bpm == e.transport.bpm
    ensures r == e.(transport := r.transport)
  {
    e.(transport := e.transport.(running := false, pending := []))
  }

  /** Handle h is one the engine still refers to: a stored synth, a stored
      channel or the main output. */
  predicate Owned(e: Engine, h: nat) {
    h in e.synths.Values || h in e.channels.Values || e.mainOutput == Some(h)
  }

  /** `dispose`: disposes every stored synth, every stored channel and the main
      output. The maps keep their entries, the main output stays set and the
      transport is left as it is. */
  function Dispose(e: Engine): (r: Engine)
    ensures |r.heap| == |e.heap|
    ensures forall i :: 0 <= i < |e.heap| ==>
      && r.heap[i].kind == e.heap[i].kind
      && (r.heap[i].disposed <==> e.heap[i].disposed || Owned(e, i))
    ensures r == e.(heap := r.heap)
  {
    e.(heap := seq(|e.heap|, i requires 0 <= i < |e.heap| =>
                 if Owned(e, i) then e.heap[i].(disposed := true) else e.heap[i]))
  }

  // ---------------------------------------------------------------------------
  // Reference schedule

  /** The triggers a note list yields, in note order. */
  function NoteTriggers(notes: seq<Note>): (r: seq<Trigger>)
    ensures |r| == |notes|
    ensures forall i :: 0 <= i < |notes| ==> r[i] == TriggerOf(notes[i])
  {
    seq(|notes|, i requires 0 <= i < |notes| => TriggerOf(notes[i]))
  }

  /** What a list of pending events plays, forgetting the synth handles. */
  function TriggersOf(events: seq<Event>): (r: seq<Trigger>)
    ensures |r| == |events|
    ensures forall i :: 0 <= i < |events| ==> r[i] == events[i].trigger
  {
    seq(|events|, i requires 0 <= i < |events| => events[i].trigger)
  }

  /** The schedule `play` should build, written independently of the engine:
      the unmuted tracks in order, each contributing its notes in order. */
  function Schedule(ts: seq<Track>): seq<Trigger>
    decreases |ts|
  {
    if |ts| == 0 then []
    else (if ts[0].mute then [] else NoteTriggers(ts[0].notes)) + Schedule(ts[1..])
  }

  /** The number of notes on unmuted tracks. */
  function UnmutedNoteCount(ts: seq<Track>): nat
    decreases |ts|
  {
    if |ts| == 0 then 0
    else (if ts[0].mute then 0 else |ts[0].notes|) + UnmutedNoteCount(ts[1..])
  }
}

=== FILE: audio_props.dfy ===
/** Properties of the playback engine that relate several calls or need
    induction: the shape of the schedule, the engine invariant, what `play`
    does to the per-track resources, and the effect of repeated calls. */
module AudioProps {
  import opened Common
  import opened Tracks
  import opened Audio

  // ---------------------------------------------------------------------------
  // Instrument presets

  /** The three named tags get three different presets, none of which is the
      default one. */
  lemma CreateInstrumentDistinguishesTags(a: string, b: string)
    requires a in KnownTags
    ensures CreateInstrument(a) == CreateInstrument(b) <==> a == b
  {
    assert PresetTag(CreateInstrument(a)) == Some(a);
  }

  // ---------------------------------------------------------------------------
  // The reference schedule

  /** Scheduling a concatenation is concatenating the schedules: events follow
      track order. */
  lemma {:induction false} ScheduleAppend(a: seq<Track>, b: seq<Track>)
    ensures Schedule(a + b) == Schedule(a) + Schedule(b)
    decreases |a|
  {
    if |a| == 0 {
      assert a + b == b;
    } else {
      assert (a + b)[0] == a[0];
      assert (a + b)[1..] == a[1..] + b;
      ScheduleAppend(a[1..], b);
    }
  }

  /** A single track contributes its notes in note order, or nothing when muted. */
  lemma ScheduleOneTrack(t: Track)
    ensures Schedule([t]) == if t.mute then [] else NoteTriggers(t.notes)
  {
    assert [t][1..] == [];
  }

  /** A muted track contributes nothing wherever it stands. */
  lemma MutedTrackContributesNothing(a: seq<Track>, m: Track, b: seq<Track>)
    requires m.mute
    ensures Schedule(a + [m] + b) == Schedule(a + b)
  {
    ScheduleAppend(a + [m], b);
    ScheduleAppend(a, [m]);
    ScheduleAppend(a, b);
    ScheduleOneTrack(m);
  }

  /** Each unmuted track with n notes contributes exactly n triggers. */
  lemma {:induction false} ScheduleLength(ts: seq<Track>)
    ensures |Schedule(ts)| == UnmutedNoteCount(ts)
    decreases |ts|
  {
    if |ts| > 0 {
      ScheduleLength(ts[1..]);
    }
  }

  // ---------------------------------------------------------------------------
  // play / stop: the pending list

  /** The pending list after `play` depends only on the tracks: neither the
      engine's earlier pending events nor the tempo change what is scheduled,
      so a second `play` of the same tracks does not accumulate events. */
  lemma PlayDependsOnlyOnTracks(e1: Engine, e2: Engine, ts: seq<Track>, tempo1: real, tempo2: real)
    ensures TriggersOf(Play(e1, ts, tempo1).transport.pending)
         == TriggersOf(Play(e2, ts, tempo2).transport.pending)
    ensures |Play(e1, ts, tempo1).transport.pending| == UnmutedNoteCount(ts)
  {
    ScheduleLength(ts);
  }

  /** Playing twice yields the triggers of playing once, with no duplicates. */
  lemma PlayTwice(e: Engine, ts: seq<Track>, tempo: real)
    ensures var once := Play(e, ts, tempo);
      var twice := Play(once, ts, tempo);
      && TriggersOf(twice.transport.pending) == TriggersOf(once.transport.pending)
      && |twice.transport.pending| == |once.transport.pending| == UnmutedNoteCount(ts)
  {
    ScheduleLength(ts);
  }

  /** `stop` after anything leaves a stopped transport with nothing pending,
      and stopping again changes nothing. */
  lemma StopIdempotent(e: Engine, ts: seq<Track>, tempo: real)
    ensures Stop(Stop(e)) == Stop(e)
    ensures var r := Stop(Play(e, ts, tempo)); !r.transport.running && r.transport.pending == []
  {
  }

  // ---------------------------------------------------------------------------
  // initAudio / dispose

  /** Repeated `initAudio` changes nothing, and the `initAudio` inside any
      later `play` finds the main output already there. */
  lemma InitAudioIdempotent(e: Engine, ts: seq<Track>, tempo: real)
    ensures InitAudio(InitAudio(e)) == InitAudio(e)
    ensures InitAudio(Play(e, ts, tempo)) == Play(e, ts, tempo)
  {
  }

  /** After `dispose` nothing the engine refers to is live; disposing again
      changes nothing. */
  lemma DisposeReleasesEverything(e: Engine)
    requires Valid(e)
    ensures var r := Dispose(e);
      && (forall k :: k in r.synths ==> !Live(r.heap, r.synths[k]))
      && (forall k :: k in r.channels ==> !Live(r.heap, r.channels[k]))
      && (r.mainOutput.Some? ==> !Live(r.heap, r.mainOutput.value))
      && Dispose(r) == r
  {
    var r := Dispose(e);
    forall k | k in r.synths
      ensures !Live(r.heap, r.synths[k])
    {
      assert e.synths[k] in e.synths.Values;
    }
    forall k | k in r.channels
      ensures !Live(r.heap, r.channels[k])
    {
      assert e.channels[k] in e.channels.Values;
    }
  }

  /** `dispose` keeps the main output handle, so a later `initAudio` does not
      create a new one: the engine keeps routing into a disposed output. */
  lemma InitAudioAfterDisposeKeepsDeadOutput(e: Engine)
    requires Valid(e) && e.mainOutput.Some?
    ensures var r := InitAudio(Dispose(e));
      r.mainOutput == e.mainOutput && !Live(r.heap, r.mainOutput.value)
  {
  }

  // ---------------------------------------------------------------------------
  // The engine invariant

  lemma InitialEngineValid()
    ensures Valid(InitialEngine)
  {
  }

  lemma SetupTrackHandlesTyped(e: Engine, t: Track)
    requires HandlesTyped(e)
    ensures HandlesTyped(SetupTrack(e, t))
  {
    var r := SetupTrack(e, t);
    forall k | k in r.synths
      ensures r.synths[k] < |r.heap| && r.heap[r.synths[k]].kind.SynthNode?
    {
      if k != t.id { assert r.synths[k] == e.synths[k]; }
    }
    forall k | k in r.channels
      ensures r.channels[k] < |r.heap| && r.heap[r.channels[k]].kind.ChannelNode?
    {
      if k != t.id { assert r.channels[k] == e.channels[k]; }
    }
  }

  lemma SetupTrackUnshared(e: Engine, t: Track)
    requires HandlesTyped(e) && HandlesUnshared(e)
    ensures HandlesUnshared(SetupTrack(e, t))
  {
    var r := SetupTrack(e, t);
    forall k1, k2 | k1 in r.synths && k2 in r.synths && k1 != k2
      ensures r.synths[k1] != r.synths[k2]
    {
      if k1 != t.id && k2 != t.id {
        assert r.synths[k1] == e.synths[k1] && r.synths[k2] == e.synths[k2];
      } else if k1 == t.id {
        assert r.synths[k2] == e.synths[k2];
      } else {
        assert r.synths[k1] == e.synths[k1];
      }
    }
    forall k1, k2 | k1 in r.channels && k2 in r.channels && k1 != k2
      ensures r.channels[k1] != r.channels[k2]
    {
      if k1 != t.id && k2 != t.id {
        assert r.channels[k1] == e.channels[k1] && r.channels[k2] == e.channels[k2];
      } else if k1 == t.id {
        assert r.channels[k2] == e.channels[k2];
      } else {
        assert r.channels[k1] == e.channels[k1];
      }
    }
  }

  lemma SetupTrackEventsTyped(e: Engine, t: Track)
    requires EventsTyped(e)
    ensures EventsTyped(SetupTrack(e, t))
  {
    var r := SetupTrack(e, t);
    forall i | 0 <= i < |r.transport.pending|
      ensures r.transport.pending[i].synth < |r.heap|
           && r.heap[r.transport.pending[i].synth].kind.SynthNode?
    {
      assert r.transport.pending[i] == e.transport.pending[i];
    }
  }

  lemma SetupTrackValid(e: Engine, t: Track)
    requires Valid(e)
    ensures Valid(SetupTrack(e, t))
  {
    SetupTrackHandlesTyped(e, t);
    SetupTrackUnshared(e, t);
    SetupTrackEventsTyped(e, t);
  }

  lemma ScheduleTrackValid(e: Engine, t: Track)
    requires Valid(e)
    ensures Valid(ScheduleTrack(e, t))
  {
    if !t.mute {
      SetupTrackValid(e, t);
      var e1 := SetupTrack(e, t);
      var r := ScheduleTrack(e, t);
      assert r == e1.(transport := r.transport);
      assert EventsTyped(r) by {
        forall i | 0 <= i < |r.transport.pending|
          ensures r.transport.pending[i].synth < |r.heap|
               && r.heap[r.transport.pending[i].synth].kind.SynthNode?
        {
          if i >= |e1.transport.pending| {
            assert r.transport.pending[i].synth == e1.synths[t.id];
          } else {
            assert r.transport.pending[i] == e1.transport.pending[i];
          }
        }
      }
    }
  }

  lemma {:induction false} ScheduleTracksValid(e: Engine, ts: seq<Track>)
    requires Valid(e)
    ensures Valid(ScheduleTracks(e, ts))
    decreases |ts|
  {
    if |ts| > 0 {
      ScheduleTrackValid(e, ts[0]);
      ScheduleTracksValid(ScheduleTrack(e, ts[0]), ts[1..]);
    }
  }

  /** Every operation of the engine keeps its bookkeeping well formed. */
  lemma OperationsPreserveValid(e: Engine, ts: seq<Track>, tempo: real)
    requires Valid(e)
    ensures Valid(InitAudio(e)) && Valid(Play(e, ts, tempo)) && Valid(Stop(e)) && Valid(Dispose(e))
  {
    var e1 := InitAudio(e);
    assert Valid(e1);
    var e2 := e1.(transport := e1.transport.(bpm := tempo, pending := []));
    assert Valid(e2);
    ScheduleTracksValid(e2, ts);
    var e3 := ScheduleTracks(e2, ts);
    assert Play(e, ts, tempo) == e3.(transport := e3.transport.(running := true));
    DisposeValid(e);
  }

  lemma DisposeValid(e: Engine)
    requires Valid(e)
    ensures Valid(Dispose(e))
  {
    var r := Dispose(e);
    assert HandlesTyped(r);
    assert EventsTyped(r) by {
      forall i | 0 <= i < |r.transport.pending|
        ensures r.transport.pending[i].synth < |r.heap|
             && r.heap[r.transport.pending[i].synth].kind.SynthNode?
      {
        assert r.transport.pending[i] == e.transport.pending[i];
      }
    }
  }

  // ---------------------------------------------------------------------------
  // play: per-track resources

  /** Setting up track t leaves the synth and the channel of every other id as
      they were, disposed or not. */
  lemma SetupTrackSparesOtherIds(e: Engine, t: Track, k: string)
    requires Valid(e) && k != t.id
    ensures var r := SetupTrack(e, t);
      && (k in e.synths ==> r.synths[k] == e.synths[k] && r.heap[e.synths[k]] == e.heap[e.synths[k]])
      && (k in e.channels ==> r.channels[k] == e.channels[k] && r.heap[e.channels[k]] == e.heap[e.channels[k]])
      && (k in r.synths <==> k in e.synths) && (k in r.channels <==> k in e.channels)
  {
    var r := SetupTrack(e, t);
    if k in e.synths {
      var h := e.synths[k];
      assert Lookup(e.synths, t.id) != Some(h);
      assert Lookup(e.channels, t.id) != Some(h) by {
        if t.id in e.channels { assert e.heap[e.channels[t.id]].kind.ChannelNode?; }
      }
    }
    if k in e.channels {
      var h := e.channels[k];
      assert Lookup(e.channels, t.id) != Some(h);
      assert Lookup(e.synths, t.id) != Some(h) by {
        if t.id in e.synths { assert e.heap[e.synths[t.id]].kind.SynthNode?; }
      }
    }
  }

  /** A track id is backed by a live synth and a live channel. */
  predicate Backed(e: Engine, id: string) {
    && id in e.synths && Live(e.heap, e.synths[id])
    && id in e.channels && Live(e.heap, e.channels[id])
  }

  lemma {:induction false} ScheduleTracksBacks(e: Engine, ts: seq<Track>)
    requires Valid(e)
    ensures var r := ScheduleTracks(e, ts);
      && (forall i :: 0 <= i < |ts| && !ts[i].mute ==> Backed(r, ts[i].id))
      && (forall id :: Backed(e, id) ==> Backed(r, id))
    decreases |ts|
  {
    if |ts| > 0 {
      var t := ts[0];
      var e1 := ScheduleTrack(e, t);
      ScheduleTrackValid(e, t);
      ScheduleTracksBacks(e1, ts[1..]);
      var r := ScheduleTracks(e, ts);
      assert r == ScheduleTracks(e1, ts[1..]);
      forall id | Backed(e, id)
        ensures Backed(e1, id)
      {
        if !t.mute && id != t.id {
          SetupTrackSparesOtherIds(e, t, id);
        }
      }
      forall i | 0 <= i < |ts| && !ts[i].mute
        ensures Backed(r, ts[i].id)
      {
        if i == 0 {
          assert Backed(e1, t.id);
        } else {
          assert ts[1..][i - 1] == ts[i];
        }
      }
    }
  }

  /** After `play` every unmuted track's id is backed by a live synth and a
      live channel. */
  lemma PlayBacksUnmutedTracks(e: Engine, ts: seq<Track>, tempo: real)
    requires Valid(e)
    ensures forall i :: 0 <= i < |ts| && !ts[i].mute ==> Backed(Play(e, ts, tempo), ts[i].id)
  {
    var e1 := InitAudio(e);
    var e2 := e1.(transport := e1.transport.(bpm := tempo, pending := []));
    assert Valid(e2);
    ScheduleTracksBacks(e2, ts);
    var e3 := ScheduleTracks(e2, ts);
    assert Play(e, ts, tempo) == e3.(transport := e3.transport.(running := true));
  }

  /** An id carried only by muted tracks (or by no track) is left alone: the
      same synth and channel, each exactly as it was. */
  lemma {:induction false} ScheduleTracksSparesMuted(e: Engine, ts: seq<Track>, id: string)
    requires Valid(e)
    requires forall i :: 0 <= i < |ts| && ts[i].id == id ==> ts[i].mute
    ensures var r := ScheduleTracks(e, ts);
      && Lookup(r.synths, id) == Lookup(e.synths, id)
      && Lookup(r.channels, id) == Lookup(e.channels, id)
      && (id in e.synths ==> r.heap[e.synths[id]] == e.heap[e.synths[id]])
      && (id in e.channels ==> r.heap[e.channels[id]] == e.heap[e.channels[id]])
    decreases |ts|
  {
    if |ts| > 0 {
      var t := ts[0];
      var e1 := ScheduleTrack(e, t);
      ScheduleTrackValid(e, t);
      if !t.mute {
        assert t.id != id;
        SetupTrackSparesOtherIds(e, t, id);
      }
      assert forall i :: 0 <= i < |ts[1..]| && ts[1..][i].id == id ==> ts[1..][i].mute by {
        forall i | 0 <= i < |ts[1..]| && ts[1..][i].id == id
          ensures ts[1..][i].mute
        {
          assert ts[1..][i] == ts[i + 1];
        }
      }
      ScheduleTracksSparesMuted(e1, ts[1..], id);
    }
  }

  /** `play` never sets up a track id that only muted tracks carry. */
  lemma PlaySparesMutedTracks(e: Engine, ts: seq<Track>, tempo: real, id: string)
    requires Valid(e)
    requires forall i :: 0 <= i < |ts| && ts[i].id == id ==> ts[i].mute
    ensures var r := Play(e, ts, tempo);
      && Lookup(r.synths, id) == Lookup(e.synths, id)
      && Lookup(r.channels, id) == Lookup(e.channels, id)
      && (id in e.synths ==> r.heap[e.synths[id]] == e.heap[e.synths[id]])
      && (id in e.channels ==> r.heap[e.channels[id]] == e.heap[e.channels[id]])
  {
    var e1 := InitAudio(e);
    var e2 := e1.(transport := e1.transport.(bpm := tempo, pending := []));
    assert Valid(e2);
    ScheduleTracksSparesMuted(e2, ts, id);
  }

  /** `setupTrack` never reuses: a second setup of the same track disposes the
      synth and channel of the first and installs new ones. */
  lemma SetupTrackNeverReuses(e: Engine, t: Track)
    ensures var once := SetupTrack(e, t);
      var twice := SetupTrack(once, t);
      && twice.synths[t.id] != once.synths[t.id]
      && !Live(twice.heap, once.synths[t.id])
      && !Live(twice.heap, once.channels[t.id])
  {
  }

  /** The events `play` registers for an unmuted track are bound to the synth
      `setupTrack` just installed for that track's id, which is live and
      carries the preset of the track's instrument. */
  lemma PlayOneTrackUsesItsSynth(e: Engine, t: Track, tempo: real)
    requires !t.mute
    ensures var r := Play(e, [t], tempo);
      && t.id in r.synths
      && r.transport.pending == NoteEvents(r.synths[t.id], t.notes)
      && Live(r.heap, r.synths[t.id])
      && r.heap[r.synths[t.id]].kind.SynthNode?
      && r.heap[r.synths[t.id]].kind.preset == CreateInstrument(t.instrument)
      && t.id in r.channels && Live(r.heap, r.channels[t.id])
      && r.heap[r.channels[t.id]].kind == ChannelNode(t.volume, t.pan, t.mute, r.mainOutput)
  {
    var e1 := InitAudio(e);
    var e2 := e1.(transport := e1.transport.(bpm := tempo, pending := []));
    var s := SetupTrack(e2, t);
    var e3 := ScheduleTrack(e2, t);
    assert e3 == s.(transport := s.transport.(pending := NoteEvents(s.synths[t.id], t.notes)));
    assert ScheduleTracks(e2, [t]) == ScheduleTracks(e3, [t][1..]);
    assert [t][1..] == [];
  }

  /** Ids are not unique: when two unmuted tracks share an id, setting up the
      second disposes the synth the first track's events captured, so those
      events would play on a disposed synth. */
  lemma SharedIdOrphansEarlierEvents(e: Engine, a: Track, b: Track, tempo: real)
    requires a.id == b.id && !a.mute && !b.mute && |a.notes| > 0
    ensures var r := Play(e, [a, b], tempo);
      |r.transport.pending| > 0 && !Live(r.heap, r.transport.pending[0].synth)
  {
    var e1 := InitAudio(e);
    var e2 := e1.(transport := e1.transport.(bpm := tempo, pending := []));
    var e3 := ScheduleTrack(e2, a);
    var h := e3.synths[a.id];
    assert e3.transport.pending[0].synth == h;
    var e4 := ScheduleTrack(e3, b);
    assert [a, b][1..] == [b] && [b][1..] == [];
    assert ScheduleTracks(e2, [a, b]) == ScheduleTracks(e3, [b]);
    assert ScheduleTracks(e3, [b]) == ScheduleTracks(e4, []);
    assert Play(e, [a, b], tempo).heap == e4.heap;
    assert Play(e, [a, b], tempo).transport.pending == e4.transport.pending;
    assert e4.transport.pending[0] == e3.transport.pending[0];
    assert !Live(e4.heap, h);
  }

  /** No two unmuted tracks share an id. */
  predicate DistinctUnmutedIds(ts: seq<Track>) {
    forall i, j :: 0 <= i < j < |ts| && !ts[i].mute && !ts[j].mute ==> ts[i].id != ts[j].id
  }

  /** Every pending event's synth is live, and none of the tracks still to be
      set up would dispose it. */
  predicate EventsSafe(e: Engine, ts: seq<Track>) {
    forall i :: 0 <= i < |e.transport.pending| ==>
      && Live(e.heap, e.transport.pending[i].synth)
      && forall j :: 0 <= j < |ts| && !ts[j].mute ==>
           Lookup(e.synths, ts[j].id) != Some(e.transport.pending[i].synth)
  }

  lemma ScheduleTrackKeepsEventsSafe(e: Engine, ts: seq<Track>)
    requires Valid(e) && |ts| > 0 && DistinctUnmutedIds(ts) && EventsSafe(e, ts)
    ensures EventsSafe(ScheduleTrack(e, ts[0]), ts[1..])
  {
    var t := ts[0];
    var r := ScheduleTrack(e, t);
    if !t.mute {
      var e1 := SetupTrack(e, t);
      assert r.heap == e1.heap && r.synths == e1.synths;
      var n := |e.transport.pending|;
      forall i | 0 <= i < |r.transport.pending|
        ensures Live(r.heap, r.transport.pending[i].synth)
        ensures forall j :: 0 <= j < |ts[1..]| && !ts[1..][j].mute ==>
                  Lookup(r.synths, ts[1..][j].id) != Some(r.transport.pending[i].synth)
      {
        var h := r.transport.pending[i].synth;
        if i < n {
          assert r.transport.pending[i] == e.transport.pending[i];
          assert Lookup(e.synths, t.id) != Some(h);
          assert e.heap[h].kind.SynthNode?;
          assert Lookup(e.channels, t.id) != Some(h) by {
            if t.id in e.channels { assert e.heap[e.channels[t.id]].kind.ChannelNode?; }
          }
        } else {
          assert h == |e.heap|;
        }
        forall j | 0 <= j < |ts[1..]| && !ts[1..][j].mute
          ensures Lookup(r.synths, ts[1..][j].id) != Some(h)
        {
          assert ts[1..][j] == ts[j + 1];
          assert ts[j + 1].id != t.id;
          assert Lookup(r.synths, ts[j + 1].id) == Lookup(e.synths, ts[j + 1].id);
        }
      }
    } else {
      forall i | 0 <= i < |r.transport.pending|
        ensures forall j :: 0 <= j < |ts[1..]| && !ts[1..][j].mute ==>
                  Lookup(r.synths, ts[1..][j].id) != Some(r.transport.pending[i].synth)
      {
        forall j | 0 <= j < |ts[1..]| && !ts[1..][j].mute
          ensures Lookup(r.synths, ts[1..][j].id) != Some(r.transport.pending[i].synth)
        {
          assert ts[1..][j] == ts[j + 1];
        }
      }
    }
  }

  lemma DistinctUnmutedIdsTail(ts: seq<Track>)
    requires |ts| > 0 && DistinctUnmutedIds(ts)
    ensures DistinctUnmutedIds(ts[1..])
  {
    forall i, j | 0 <= i < j < |ts[1..]| && !ts[1..][i].mute && !ts[1..][j].mute
      ensures ts[1..][i].id != ts[1..][j].id
    {
      assert ts[1..][i] == ts[i + 1] && ts[1..][j] == ts[j + 1];
    }
  }

  lemma {:induction false} ScheduleTracksEventsLive(e: Engine, ts: seq<Track>)
    requires Valid(e) && DistinctUnmutedIds(ts) && EventsSafe(e, ts)
    ensures var r := ScheduleTracks(e, ts);
      forall i :: 0 <= i < |r.transport.pending| ==> Live(r.heap, r.transport.pending[i].synth)
    decreases |ts|
  {
    if |ts| == 0 {
      assert ScheduleTracks(e, ts) == e;
    } else {
      var e1 := ScheduleTrack(e, ts[0]);
      ScheduleTrackKeepsEventsSafe(e, ts);
      ScheduleTrackValid(e, ts[0]);
      DistinctUnmutedIdsTail(ts);
      ScheduleTracksEventsLive(e1, ts[1..]);
      assert ScheduleTracks(e, ts) == ScheduleTracks(e1, ts[1..]);
    }
  }

  /** `play` starts from an empty pending list on a well-formed engine. */
  lemma PlayPrologue(e: Engine, ts: seq<Track>, tempo: real)
    requires Valid(e)
    ensures var e1 := InitAudio(e);
      var e2 := e1.(transport := e1.transport.(bpm := tempo, pending := []));
      && Valid(e2) && EventsSafe(e2, ts)
      && var e3 := ScheduleTracks(e2, ts);
         Play(e, ts, tempo) == e3.(transport := e3.transport.(running := true))
  {
  }

  /** When no two unmuted tracks share an id, every event `play` schedules
      captured a synth that is still live afterwards. */
  lemma PlayEventsLiveWhenIdsDistinct(e: Engine, ts: seq<Track>, tempo: real)
    requires Valid(e) && DistinctUnmutedIds(ts)
    ensures var r := Play(e, ts, tempo);
      forall i :: 0 <= i < |r.transport.pending| ==> Live(r.heap, r.transport.pending[i].synth)
  {
    var e1 := InitAudio(e);
    var e2 := e1.(transport := e1.transport.(bpm := tempo, pending := []));
    PlayPrologue(e, ts, tempo);
    ScheduleTracksEventsLive(e2, ts);
  }
}

=== FILE: common.dfy ===
/** Small shared vocabulary: an optional value standing for a JavaScript key that
    may be missing, the two JavaScript defaulting operators, and the decimal
    rendering a template literal applies to a non-negative integer. */
module Common {

  /** A key of a JavaScript object: missing (`undefined`) or holding a value. */
  datatype Option<T> = None | Some(value: T)

  /** `a ?? d`: only a missing value falls back to the default; an explicit
      `0`, `false` or `""` is kept. */
  function Coalesce<T>(a: Option<T>, d: T): (r: T)
    ensures a.Some? ==> r == a.value
    ensures a.None? ==> r == d
  {
    if a.Some? then a.value else d
  }

  /** `a || d` for a string: the empty string is falsy and falls back too. */
  function OrString(a: Option<string>, d: string): (r: string)
    ensures a.Some? && a.value != "" ==> r == a.value
    ensures a.None? || a.value == "" ==> r == d
  {
    if a.Some? && a.value != "" then a.value else d
  }

  /** `a || d` for a number: zero is falsy and falls back too (NaN, also falsy
      in JavaScript, has no counterpart among the reals). */
  function OrNumber(a: Option<real>, d: real): (r: real)
    ensures a.Some? && a.value != 0.0 ==> r == a.value
    ensures a.None? || a.value == 0.0 ==> r == d
  {
    if a.Some? && a.value != 0.0 then a.value else d
  }

  predicate IsDigit(c: char) {
    '0' <= c <= '9'
  }

  predicate AllDigits(s: string) {
    forall i :: 0 <= i < |s| ==> IsDigit(s[i])
  }

  function DigitChar(d: nat): (c: char)
    requires d < 10
    ensures IsDigit(c)
  {
    ('0' as int + d) as char
  }

  function DigitValue(c: char): (d: nat)
    requires IsDigit(c)
    ensures d < 10
  {
    c as int - '0' as int
  }

  /** The text `${n}` produces for a non-negative integer: its decimal digits,
      without leading zeros. */
  function Decimal(n: nat): (s: string)
    ensures |s| > 0 && AllDigits(s)
    ensures |s| > 1 ==> s[0] != '0'
    ensures n < 10 <==> |s| == 1
    decreases n
  {
    if n < 10 then [DigitChar(n)] else Decimal(n / 10) + [DigitChar(n % 10)]
  }

  /** Reads a string of decimal digits back as a number; the inverse of `Decimal`. */
  function ParseDecimal(s: string): nat
    requires AllDigits(s)
    decreases |s|
  {
    if |s| == 0 then 0 else ParseDecimal(s[..|s| - 1]) * 10 + DigitValue(s[|s| - 1])
  }

  lemma {:induction false} DecimalRoundTrip(n: nat)
    ensures ParseDecimal(Decimal(n)) == n
    decreases n
  {
    if n >= 10 {
      var s := Decimal(n);
      assert s[..|s| - 1] == Decimal(n / 10);
      DecimalRoundTrip(n / 10);
    }
  }

  /** Distinct numbers render to distinct texts. */
  lemma DecimalInjective(m: nat, n: nat)
    ensures Decimal(m) == Decimal(n) <==> m == n
  {
    DecimalRoundTrip(m);
    DecimalRoundTrip(n);
  }

  /** Prefixing a fixed text keeps rendered numbers apart: `${p}${m}` and
      `${p}${n}` coincide exactly when m and n do. */
  lemma PrefixedDecimalInjective(p: string, m: nat, n: nat)
    ensures p + Decimal(m) == p + Decimal(n) <==> m == n
  {
    if p + Decimal(m) == p + Decimal(n) {
      assert Decimal(m) == (p + Decimal(m))[|p|..];
      assert Decimal(n) == (p + Decimal(n))[|p|..];
    }
    DecimalInjective(m, n);
  }
}

=== FILE: keyed.dfy ===
/** Sequences of records looked up by a string id, as the stores do with
    `findIndex`, `find` and `filter` over `t => t.id === id`. The id of a record
    is read through `key`, so tracks and notes share these definitions. */
module Keyed {
  import opened Common

  /** `s.findIndex(x => key(x) === k)`: the index of the FIRST record with id k,
      or -1 when there is none. */
  function FirstIndex<T>(s: seq<T>, key: T -> string, k: string): (r: int)
    ensures -1 <= r < |s|
    ensures r == -1 <==> forall i :: 0 <= i < |s| ==> key(s[i]) != k
    ensures r >= 0 ==> key(s[r]) == k && forall i :: 0 <= i < r ==> key(s[i]) != k
    decreases |s|
  {
    if |s| == 0 then -1
    else if key(s[0]) == k then 0
    else
      var j := FirstIndex(s[1..], key, k);
      if j == -1 then -1 else j + 1
  }

  /** Changing records at or after the first match, while the match keeps id k,
      leaves the first match where it was. */
  lemma FirstIndexStable<T>(s: seq<T>, s': seq<T>, key: T -> string, k: string, i: int)
    requires 0 <= i < |s| && |s'| == |s|
    requires FirstIndex(s, key, k) == i
    requires key(s'[i]) == k
    requires forall j :: 0 <= j < i ==> s'[j] == s[j]
    ensures FirstIndex(s', key, k) == i
  {
  }

  /** `s.find(x => key(x) === k)`: the first record with id k, if any. */
  function Find<T>(s: seq<T>, key: T -> string, k: string): (r: Option<T>)
    ensures r.None? <==> forall i :: 0 <= i < |s| ==> key(s[i]) != k
    ensures r.Some? ==> r.value in s && key(r.value) == k
    ensures r.Some? ==>
      exists i :: 0 <= i < |s| && s[i] == r.value && forall j :: 0 <= j < i ==> key(s[j]) != k
  {
    var i := FirstIndex(s, key, k);
    if i == -1 then None else Some(s[i])
  }

  /** `s.filter(x => key(x) !== k)`: every record with id k removed. */
  function RemoveKey<T(!new)>(s: seq<T>, key: T -> string, k: string): (r: seq<T>)
    ensures |r| <= |s|
    ensures forall x :: x in r <==> x in s && key(x) != k
    decreases |s|
  {
    if |s| == 0 then []
    else if key(s[0]) == k then RemoveKey(s[1..], key, k)
    else [s[0]] + RemoveKey(s[1..], key, k)
  }

  /** How many records carry id k. */
  function Count<T>(s: seq<T>, key: T -> string, k: string): nat
    decreases |s|
  {
    if |s| == 0 then 0
    else (if key(s[0]) == k then 1 else 0) + Count(s[1..], key, k)
  }

  /** Removing by id is idempotent. */
  lemma {:induction false} RemoveKeyIdempotent<T(!new)>(s: seq<T>, key: T -> string, k: string)
    ensures RemoveKey(RemoveKey(s, key, k), key, k) == RemoveKey(s, key, k)
    decreases |s|
  {
    if |s| > 0 {
      RemoveKeyIdempotent(s[1..], key, k);
      if key(s[0]) != k {
        var rest := RemoveKey(s[1..], key, k);
        assert ([s[0]] + rest)[1..] == rest;
      }
    }
  }

  /** Filtering distributes over concatenation, so the survivors keep their
      relative order. */
  lemma {:induction false} RemoveKeyAppend<T(!new)>(a: seq<T>, b: seq<T>, key: T -> string, k: string)
    ensures RemoveKey(a + b, key, k) == RemoveKey(a, key, k) + RemoveKey(b, key, k)
    decreases |a|
  {
    if |a| == 0 {
      assert a + b == b;
    } else {
      assert (a + b)[0] == a[0];
      assert (a + b)[1..] == a[1..] + b;
      RemoveKeyAppend(a[1..], b, key, k);
    }
  }

  /** Exactly the records carrying id k disappear. */
  lemma {:induction false} RemoveKeyLength<T(!new)>(s: seq<T>, key: T -> string, k: string)
    ensures |RemoveKey(s, key, k)| == |s| - Count(s, key, k)
    decreases |s|
  {
    if |s| > 0 {
      RemoveKeyLength(s[1..], key, k);
    }
  }

  /** Removing an id nobody carries changes nothing. */
  /** The filter keeps every other record as often as it occurred. */
  lemma {:induction false} RemoveKeyMultiplicity<T(!new)>(s: seq<T>, key: T -> string, k: string, x: T)
    ensures multiset(RemoveKey(s, key, k))[x] == if key(x) == k then 0 else multiset(s)[x]
    decreases |s|
  {
    if |s| > 0 {
      assert s == [s[0]] + s[1..];
      RemoveKeyMultiplicity(s[1..], key, k, x);
    }
  }

  /** Filtering out a record just appended under an id no earlier record
      carries gives back the list before the append. */
  lemma RemoveAppendedAbsent<T(!new)>(s: seq<T>, x: T, key: T -> string, k: string)
    requires key(x) == k
    requires forall i :: 0 <= i < |s| ==> key(s[i]) != k
    ensures RemoveKey(s + [x], key, k) == s
  {
    RemoveKeyAppend(s, [x], key, k);
    RemoveAbsentKey(s, key, k);
    assert RemoveKey([x], key, k) == [];
  }

  lemma {:induction false} RemoveAbsentKey<T(!new)>(s: seq<T>, key: T -> string, k: string)
    requires forall i :: 0 <= i < |s| ==> key(s[i]) != k
    ensures RemoveKey(s, key, k) == s
    decreases |s|
  {
    if |s| > 0 {
      RemoveAbsentKey(s[1..], key, k);
      assert [s[0]] + s[1..] == s;
    }
  }
}

=== FILE: tracks.dfy ===
/** The track/note store (src/stores/tracks.js): an ordered sequence of tracks,
    each holding an ordered sequence of notes, plus the selection, the tempo and
    the playing flag. Every store action is a pure function from the old store
    to the new one; `Date.now()` is the explicit parameter `now`. */
module Tracks {
  import opened Common
  import opened Keyed

  /** A note record; `pitch` is the JavaScript record's `note` field (a name such as "C4"). */
  datatype Note = Note(id: string, pitch: string, start: real, duration: real, velocity: real)

  datatype Eq = Eq(low: real, mid: real, high: real)

  datatype Effects = Effects(reverb: real, delay: real, eq: Eq)

  /** A track record; `kind` is the JavaScript record's `type` field. */
  datatype Track = Track(
    id: string,
    name: string,
    kind: string,
    instrument: string,
    color: string,
    volume: real,
    pan: real,
    mute: bool,
    solo: bool,
    notes: seq<Note>,
    effects: Effects)

  /** A partial track object: the argument of `addTrack` and the `updates` of
      `updateTrack`. None means the key is absent. */
  datatype TrackFields = TrackFields(
    id: Option<string>,
    name: Option<string>,
    kind: Option<string>,
    instrument: Option<string>,
    color: Option<string>,
    volume: Option<real>,
    pan: Option<real>,
    mute: Option<bool>,
    solo: Option<bool>,
    notes: Option<seq<Note>>,
    effects: Option<Effects>)

  /** A partial note object: the argument of `addNote` and the `updates` of `updateNote`. */
  datatype NoteFields = NoteFields(
    id: Option<string>,
    pitch: Option<string>,
    start: Option<real>,
    duration: Option<real>,
    velocity: Option<real>)

  /** The argument of `loadProject`. */
  datatype ProjectData = ProjectData(tracks: Option<seq<Track>>, tempo: Option<real>)

  datatype Store = Store(
    tracks: seq<Track>,
    selectedTrackId: Option<string>,
    selectedNoteId: Option<string>,
    tempo: real,
    isPlaying: bool)

  const DefaultTempo: real := 120.0
  const DefaultVolume: real := -10.0
  const Palette: seq<string> := ["#8b5cf6", "#06b6d4", "#10b981", "#f59e0b", "#ef4444"]
  const DefaultEffects := Effects(0.0, 0.0, Eq(0.0, 0.0, 0.0))
  const NoTrackFields := TrackFields(None, None, None, None, None, None, None, None, None, None, None)
  const NoNoteFields := NoteFields(None, None, None, None, None)

  const InitialStore := Store([], None, None, DefaultTempo, false)

  function TrackId(t: Track): string { t.id }
  function NoteId(n: Note): string { n.id }

  /** The `selectedTrack` getter: the first track whose id is the selected id. */
  function SelectedTrack(s: Store): (r: Option<Track>)
    ensures r.Some? <==>
      s.selectedTrackId.Some? && exists i :: 0 <= i < |s.tracks| && s.tracks[i].id == s.selectedTrackId.value
    ensures r.Some? ==>
      && Some(r.value.id) == s.selectedTrackId
      && exists i :: 0 <= i < |s.tracks| && s.tracks[i] == r.value &&
           forall j :: 0 <= j < i ==> s.tracks[j].id != r.value.id
  {
    match s.selectedTrackId
    case None => None
    case Some(id) => Find(s.tracks, TrackId, id)
  }

  // ---------------------------------------------------------------------------
  // Tracks

  /** The record `addTrack` builds when the store already holds `count` tracks.
      `||` guards the string fields, `notes` and `effects`; `??` guards volume,
      pan, mute and solo. An array or object is never falsy, so on `notes` and
      `effects` the `||` only replaces a missing value. */
  function NewTrack(count: nat, data: TrackFields, now: nat): Track {
    Track(
      id := OrString(data.id, "track-" + Decimal(now)),
      name := OrString(data.name, "Track " + Decimal(count + 1)),
      kind := OrString(data.kind, "midi"),
      instrument := OrString(data.instrument, "synth"),
      color := OrString(data.color, Palette[count % |Palette|]),
      volume := Coalesce(data.volume, DefaultVolume),
      pan := Coalesce(data.pan, 0.0),
      mute := Coalesce(data.mute, false),
      solo := Coalesce(data.solo, false),
      notes := Coalesce(data.notes, []),
      effects := Coalesce(data.effects, DefaultEffects))
  }

  /** `addTrack`: appends one track and returns its id. */
  function AddTrack(s: Store, data: TrackFields, now: nat): (r: (Store, string))
    ensures |r.0.tracks| == |s.tracks| + 1
    ensures r.0.tracks[..|s.tracks|] == s.tracks
    ensures r.0.tracks[|s.tracks|].id == r.1
    ensures r.1 != ""
    ensures r.0 == s.(tracks := r.0.tracks)
  {
    var t := NewTrack(|s.tracks|, data, now);
    (s.(tracks := s.tracks + [t]), t.id)
  }

  /** `{...t, ...u}` restricted to a track's keys: a key present in `u` wins. */
  function MergeTrack(t: Track, u: TrackFields): (r: Track)
    ensures u == NoTrackFields ==> r == t
    ensures u.id.None? ==> r.id == t.id
  {
    Track(
      id := Coalesce(u.id, t.id),
      name := Coalesce(u.name, t.name),
      kind := Coalesce(u.kind, t.kind),
      instrument := Coalesce(u.instrument, t.instrument),
      color := Coalesce(u.color, t.color),
      volume := Coalesce(u.volume, t.volume),
      pan := Coalesce(u.pan, t.pan),
      mute := Coalesce(u.mute, t.mute),
      solo := Coalesce(u.solo, t.solo),
      notes := Coalesce(u.notes, t.notes),
      effects := Coalesce(u.effects, t.effects))
  }

  /** `{...p, ...q}` on two partial tracks: a key present in `q` wins. */
  function OverlayTrackFields(p: TrackFields, q: TrackFields): TrackFields {
    TrackFields(
      if q.id.Some? then q.id else p.id,
      if q.name.Some? then q.name else p.name,
      if q.kind.Some? then q.kind else p.kind,
      if q.instrument.Some? then q.instrument else p.instrument,
      if q.color.Some? then q.color else p.color,
      if q.volume.Some? then q.volume else p.volume,
      if q.pan.Some? then q.pan else p.pan,
      if q.mute.Some? then q.mute else p.mute,
      if q.solo.Some? then q.solo else p.solo,
      if q.notes.Some? then q.notes else p.notes,
      if q.effects.Some? then q.effects else p.effects)
  }

  /** `updateTrack`: merges `updates` into the FIRST track with that id. */
  function UpdateTrack(s: Store, trackId: string, updates: TrackFields): (r: Store)
    ensures (forall i :: 0 <= i < |s.tracks| ==> s.tracks[i].id != trackId) ==> r == s
    ensures |r.tracks| == |s.tracks|
    ensures r == s.(tracks := r.tracks)
    ensures var i := FirstIndex(s.tracks, TrackId, trackId);
      i >= 0 ==>
        r.tracks[i] == MergeTrack(s.tracks[i], updates) &&
        forall j :: 0 <= j < |s.tracks| && j != i ==> r.tracks[j] == s.tracks[j]
  {
    var i := FirstIndex(s.tracks, TrackId, trackId);
    if i == -1 then s
    else s.(tracks := s.tracks[i := MergeTrack(s.tracks[i], updates)])
  }

  /** `deleteTrack`: the filter that drops every track with that id. Each other
      track keeps its multiplicity (`TracksProps.DeleteTrackMultiplicity`), and
      the survivors keep their order (`TracksProps.DeleteTrackAppend`). */
  function DeleteTrack(s: Store, trackId: string): (r: Store)
    ensures r.tracks == RemoveKey(s.tracks, TrackId, trackId)
    ensures forall t :: t in r.tracks <==> t in s.tracks && t.id != trackId
    ensures |r.tracks| == |s.tracks| - Count(s.tracks, TrackId, trackId)
    ensures r == s.(tracks := r.tracks)
  {
    RemoveKeyLength(s.tracks, TrackId, trackId);
    s.(tracks := RemoveKey(s.tracks, TrackId, trackId))
  }

  // ---------------------------------------------------------------------------
  // Notes

  /** The record `addNote` builds: `||` on id and pitch, `??` on the numbers. */
  function NewNote(data: NoteFields, now: nat): Note {
    Note(
      id := OrString(data.id, "note-" + Decimal(now)),
      pitch := OrString(data.pitch, "C4"),
      start := Coalesce(data.start, 0.0),
      duration := Coalesce(data.duration, 1.0),
      velocity := Coalesce(data.velocity, 100.0))
  }

  /** `addNote`: appends one note to the first track with that id and returns
      the note's id; returns nothing and changes nothing when there is no such track. */
  function AddNote(s: Store, trackId: string, data: NoteFields, now: nat): (r: (Store, Option<string>))
    ensures r.1.None? <==> forall i :: 0 <= i < |s.tracks| ==> s.tracks[i].id != trackId
    ensures r.1.None? ==> r.0 == s
    ensures |r.0.tracks| == |s.tracks|
    ensures r.0 == s.(tracks := r.0.tracks)
    ensures var i := FirstIndex(s.tracks, TrackId, trackId);
      i >= 0 ==>
        var old_ := s.tracks[i].notes;
        var new_ := r.0.tracks[i].notes;
        && r.0.tracks[i] == s.tracks[i].(notes := new_)
        && |new_| == |old_| + 1
        && new_[..|old_|] == old_
        && r.1 == Some(new_[|old_|].id)
        && r.1.value != ""
        && forall j :: 0 <= j < |s.tracks| && j != i ==> r.0.tracks[j] == s.tracks[j]
  {
    var i := FirstIndex(s.tracks, TrackId, trackId);
    if i == -1 then (s, None)
    else
      var n := NewNote(data, now);
      var t := s.tracks[i];
      (s.(tracks := s.tracks[i := t.(notes := t.notes + [n])]), Some(n.id))
  }

  /** `{...n, ...u}` restricted to a note's keys. */
  function MergeNote(n: Note, u: NoteFields): (r: Note)
    ensures u == NoNoteFields ==> r == n
    ensures u.id.None? ==> r.id == n.id
  {
    Note(
      id := Coalesce(u.id, n.id),
      pitch := Coalesce(u.pitch, n.pitch),
      start := Coalesce(u.start, n.start),
      duration := Coalesce(u.duration, n.duration),
      velocity := Coalesce(u.velocity, n.velocity))
  }

  /** `updateNote`: merges `updates` into the first note with that id of the
      first track with that id; nothing else changes. */
  function UpdateNote(s: Store, trackId: string, noteId: string, updates: NoteFields): (r: Store)
    ensures (forall i :: 0 <= i < |s.tracks| ==> s.tracks[i].id != trackId) ==> r == s
    ensures |r.tracks| == |s.tracks|
    ensures r == s.(tracks := r.tracks)
    ensures var i := FirstIndex(s.tracks, TrackId, trackId);
      i >= 0 ==>
        var ns := s.tracks[i].notes;
        var j := FirstIndex(ns, NoteId, noteId);
        && r.tracks[i] == s.tracks[i].(notes := r.tracks[i].notes)
        && |r.tracks[i].notes| == |ns|
        && (j == -1 ==> r == s)
        && (j >= 0 ==> r.tracks[i].notes[j] == MergeNote(ns[j], updates))
        && (forall k :: 0 <= k < |ns| && k != j ==> r.tracks[i].notes[k] == ns[k])
        && forall k :: 0 <= k < |s.tracks| && k != i ==> r.tracks[k] == s.tracks[k]
  {
    var i := FirstIndex(s.tracks, TrackId, trackId);
    if i == -1 then s
    else
      var t := s.tracks[i];
      var j := FirstIndex(t.notes, NoteId, noteId);
      if j == -1 then s
      else s.(tracks := s.tracks[i := t.(notes := t.notes[j := MergeNote(t.notes[j], updates)])])
  }

  /** `deleteNote`: filters every note with that id out of the first track with
      that id; every other track is untouched. Each other note keeps its
      multiplicity (`Keyed.RemoveKeyMultiplicity`) and the survivors keep their
      order (`Keyed.RemoveKeyAppend`), both stated on the filter. */
  function DeleteNote(s: Store, trackId: string, noteId: string): (r: Store)
    ensures (forall i :: 0 <= i < |s.tracks| ==> s.tracks[i].id != trackId) ==> r == s
    ensures |r.tracks| == |s.tracks|
    ensures r == s.(tracks := r.tracks)
    ensures var i := FirstIndex(s.tracks, TrackId, trackId);
      i >= 0 ==>
        && r.tracks[i] == s.tracks[i].(notes := r.tracks[i].notes)
        && r.tracks[i].notes == RemoveKey(s.tracks[i].notes, NoteId, noteId)
        && (forall n :: n in r.tracks[i].notes <==> n in s.tracks[i].notes && n.id != noteId)
        && |r.tracks[i].notes| == |s.tracks[i].notes| - Count(s.tracks[i].notes, NoteId, noteId)
        && forall k :: 0 <= k < |s.tracks| && k != i ==> r.tracks[k] == s.tracks[k]
  {
    var i := FirstIndex(s.tracks, TrackId, trackId);
    if i == -1 then s
    else
      var t := s.tracks[i];
      RemoveKeyLength(t.notes, NoteId, noteId);
      s.(tracks := s.tracks[i := t.(notes := RemoveKey(t.notes, NoteId, noteId))])
  }

  // ---------------------------------------------------------------------------
  // Project

  /** `loadProject`: replaces the track list and the tempo; the selection and
      the playing flag are kept. */
  function LoadProject(s: Store, p: ProjectData): (r: Store)
    ensures p.tracks.Some? ==> r.tracks == p.tracks.value
    ensures p.tracks.None? ==> r.tracks == []
    ensures p.tempo.Some? && p.tempo.value != 0.0 ==> r.tempo == p.tempo.value
    ensures p.tempo.None? || p.tempo.value == 0.0 ==> r.tempo == DefaultTempo
    ensures r.tempo != 0.0
    ensures r == s.(tracks := r.tracks, tempo := r.tempo)
  {
    s.(tracks := Coalesce(p.tracks, []), tempo := OrNumber(p.tempo, DefaultTempo))
  }
}

=== FILE: tracks_props.dfy ===
/** Properties of the track/note store that relate several calls: the default
    policy of `addTrack`/`addNote`, add-then-delete round trips, idempotence of
    the update and delete actions, and the id collisions of `Date.now()` ids. */
module TracksProps {
  import opened Common
  import opened Keyed
  import opened Tracks

  // ---------------------------------------------------------------------------
  // addTrack

  /** The default policy of `addTrack`: the `||` fields replace a missing value
      AND an empty string; the `??` fields replace only a missing value, so an
      explicit `0` or `false` is kept. */
  lemma AddTrackDefaults(s: Store, data: TrackFields, now: nat)
    ensures var t := AddTrack(s, data, now).0.tracks[|s.tracks|];
      && (data.name.None? || data.name == Some("") ==> t.name == "Track " + Decimal(|s.tracks| + 1))
      && (data.name.Some? && data.name != Some("") ==> t.name == data.name.value)
      && (data.id.None? || data.id == Some("") ==> t.id == "track-" + Decimal(now))
      && (data.id.Some? && data.id != Some("") ==> t.id == data.id.value)
      && (data.kind.Some? && data.kind != Some("") ==> t.kind == data.kind.value)
      && (data.instrument.Some? && data.instrument != Some("") ==> t.instrument == data.instrument.value)
      && (data.effects.Some? ==> t.effects == data.effects.value)
      && (data.kind.None? || data.kind == Some("") ==> t.kind == "midi")
      && (data.instrument.None? || data.instrument == Some("") ==> t.instrument == "synth")
      && (data.volume.None? ==> t.volume == -10.0)
      && (data.volume.Some? ==> t.volume == data.volume.value)
      && (data.pan.None? ==> t.pan == 0.0)
      && (data.pan.Some? ==> t.pan == data.pan.value)
      && (data.mute.None? ==> !t.mute)
      && (data.mute.Some? ==> t.mute == data.mute.value)
      && (data.solo.None? ==> !t.solo)
      && (data.solo.Some? ==> t.solo == data.solo.value)
      && (data.notes.None? ==> t.notes == [])
      && (data.notes.Some? ==> t.notes == data.notes.value)
      && (data.effects.None? ==> t.effects == Effects(0.0, 0.0, Eq(0.0, 0.0, 0.0)))
  {
  }

  /** Without a colour the new track takes palette entry `length % 5`, so its
      colour is always one of the five palette entries. */
  lemma AddTrackColor(s: Store, data: TrackFields, now: nat)
    ensures var t := AddTrack(s, data, now).0.tracks[|s.tracks|];
      && (data.color.None? || data.color == Some("") ==>
            t.color == Palette[|s.tracks| % 5] && t.color in Palette)
      && (data.color.Some? && data.color != Some("") ==> t.color == data.color.value)
  {
  }

  /** Two generated track ids (no usable `id` given) coincide exactly when the
      two calls read the same clock value: ids taken in the same millisecond collide. */
  lemma GeneratedTrackIdsCollideOnSameInstant(s1: Store, d1: TrackFields, n1: nat,
                                              s2: Store, d2: TrackFields, n2: nat)
    requires d1.id.None? || d1.id == Some("")
    requires d2.id.None? || d2.id == Some("")
    ensures AddTrack(s1, d1, n1).1 == AddTrack(s2, d2, n2).1 <==> n1 == n2
  {
    PrefixedDecimalInjective("track-", n1, n2);
  }

  /** Deleting the track just added, when its id was not in use, restores the store. */
  lemma AddTrackThenDelete(s: Store, data: TrackFields, now: nat)
    requires forall i :: 0 <= i < |s.tracks| ==> s.tracks[i].id != AddTrack(s, data, now).1
    ensures DeleteTrack(AddTrack(s, data, now).0, AddTrack(s, data, now).1) == s
  {
    var (s', id) := AddTrack(s, data, now);
    var t := s'.tracks[|s.tracks|];
    assert s'.tracks == s.tracks + [t];
    RemoveKeyAppend(s.tracks, [t], TrackId, id);
    RemoveAbsentKey(s.tracks, TrackId, id);
    assert RemoveKey([t], TrackId, id) == [];
  }

  /** With a fresh id, selecting the id `addTrack` returned selects the new track. */
  lemma AddTrackThenSelect(s: Store, data: TrackFields, now: nat)
    requires forall i :: 0 <= i < |s.tracks| ==> s.tracks[i].id != AddTrack(s, data, now).1
    ensures var (s', id) := AddTrack(s, data, now);
      SelectedTrack(s'.(selectedTrackId := Some(id))) == Some(s'.tracks[|s.tracks|])
  {
    var (s', id) := AddTrack(s, data, now);
    assert TrackId(s'.tracks[|s.tracks|]) == id;
    assert forall j :: 0 <= j < |s.tracks| ==> TrackId(s'.tracks[j]) != id;
  }

  // ---------------------------------------------------------------------------
  // updateTrack

  /** Spread semantics: a key absent from `updates` keeps the old value, a key
      present in it replaces the old value, whatever that value is. */
  lemma MergeTrackKeys(t: Track, u: TrackFields)
    ensures var r := MergeTrack(t, u);
      && (u.name.None? ==> r.name == t.name) && (u.name.Some? ==> r.name == u.name.value)
      && (u.instrument.None? ==> r.instrument == t.instrument)
      && (u.instrument.Some? ==> r.instrument == u.instrument.value)
      && (u.volume.None? ==> r.volume == t.volume) && (u.volume.Some? ==> r.volume == u.volume.value)
      && (u.pan.None? ==> r.pan == t.pan) && (u.pan.Some? ==> r.pan == u.pan.value)
      && (u.mute.None? ==> r.mute == t.mute) && (u.mute.Some? ==> r.mute == u.mute.value)
      && (u.notes.None? ==> r.notes == t.notes) && (u.notes.Some? ==> r.notes == u.notes.value)
      && (u.id.None? ==> r.id == t.id) && (u.id.Some? ==> r.id == u.id.value)
      && (u.kind.None? ==> r.kind == t.kind) && (u.kind.Some? ==> r.kind == u.kind.value)
      && (u.color.None? ==> r.color == t.color) && (u.color.Some? ==> r.color == u.color.value)
      && (u.solo.None? ==> r.solo == t.solo) && (u.solo.Some? ==> r.solo == u.solo.value)
      && (u.effects.None? ==> r.effects == t.effects) && (u.effects.Some? ==> r.effects == u.effects.value)
  {
  }

  /** The same spread rule for `{...n, ...u}` on a note. */
  lemma MergeNoteKeys(n: Note, u: NoteFields)
    ensures var r := MergeNote(n, u);
      && (u.id.None? ==> r.id == n.id) && (u.id.Some? ==> r.id == u.id.value)
      && (u.pitch.None? ==> r.pitch == n.pitch) && (u.pitch.Some? ==> r.pitch == u.pitch.value)
      && (u.start.None? ==> r.start == n.start) && (u.start.Some? ==> r.start == u.start.value)
      && (u.duration.None? ==> r.duration == n.duration)
      && (u.duration.Some? ==> r.duration == u.duration.value)
      && (u.velocity.None? ==> r.velocity == n.velocity)
      && (u.velocity.Some? ==> r.velocity == u.velocity.value)
  {
  }

  /** Two successive merges equal one merge of the overlaid updates
      (`{...{...t, ...p}, ...q} == {...t, ...{...p, ...q}}`). */
  lemma MergeTrackOverlay(t: Track, p: TrackFields, q: TrackFields)
    ensures MergeTrack(MergeTrack(t, p), q) == MergeTrack(t, OverlayTrackFields(p, q))
  {
  }

  /** An update that keeps the id hits the same track again, so repeating it
      changes nothing more. (An update that renames the track is not
      idempotent: the second call finds the next track with the old id.) */
  lemma UpdateTrackIdempotent(s: Store, trackId: string, updates: TrackFields)
    requires updates.id.None? || updates.id == Some(trackId)
    ensures UpdateTrack(UpdateTrack(s, trackId, updates), trackId, updates)
         == UpdateTrack(s, trackId, updates)
  {
    var i := FirstIndex(s.tracks, TrackId, trackId);
    if i >= 0 {
      var s1 := UpdateTrack(s, trackId, updates);
      FirstIndexStable(s.tracks, s1.tracks, TrackId, trackId, i);
      assert MergeTrack(MergeTrack(s.tracks[i], updates), updates) == MergeTrack(s.tracks[i], updates);
      assert s1.tracks[i := MergeTrack(s1.tracks[i], updates)] == s1.tracks;
    }
  }

  /** A renaming update is not idempotent: on two tracks sharing an id, the
      second call renames the second track too. */
  lemma UpdateTrackRenameReachesNextTrack(t: Track, other: string)
    requires other != t.id
    ensures var s := InitialStore.(tracks := [t, t]);
      var u := NoTrackFields.(id := Some(other));
      UpdateTrack(UpdateTrack(s, t.id, u), t.id, u) != UpdateTrack(s, t.id, u)
  {
    var s := InitialStore.(tracks := [t, t]);
    var u := NoTrackFields.(id := Some(other));
    var s1 := UpdateTrack(s, t.id, u);
    assert FirstIndex(s.tracks, TrackId, t.id) == 0;
    assert s1.tracks == [t.(id := other), t];
    assert FirstIndex(s1.tracks, TrackId, t.id) == 1;
    assert UpdateTrack(s1, t.id, u).tracks[1].id == other;
  }

  // ---------------------------------------------------------------------------
  // deleteTrack

  lemma DeleteTrackIdempotent(s: Store, trackId: string)
    ensures DeleteTrack(DeleteTrack(s, trackId), trackId) == DeleteTrack(s, trackId)
  {
    RemoveKeyIdempotent(s.tracks, TrackId, trackId);
  }

  /** Deletion works piecewise on any split of the track list, so the tracks
      that survive keep their relative order. */
  lemma DeleteTrackAppend(s: Store, a: seq<Track>, b: seq<Track>, trackId: string)
    requires s.tracks == a + b
    ensures DeleteTrack(s, trackId).tracks
         == DeleteTrack(s.(tracks := a), trackId).tracks + DeleteTrack(s.(tracks := b), trackId).tracks
  {
    RemoveKeyAppend(a, b, TrackId, trackId);
  }

  /** Every track without the id survives as often as it occurred. */
  lemma DeleteTrackMultiplicity(s: Store, trackId: string, t: Track)
    ensures multiset(DeleteTrack(s, trackId).tracks)[t]
         == if t.id == trackId then 0 else multiset(s.tracks)[t]
  {
    RemoveKeyMultiplicity(s.tracks, TrackId, trackId, t);
  }

  // ---------------------------------------------------------------------------
  // addNote / updateNote / deleteNote

  /** The default policy of `addNote`: `||` on id and pitch, `??` on start,
      duration and velocity (an explicit 0 is kept). */
  lemma AddNoteDefaults(s: Store, trackId: string, data: NoteFields, now: nat)
    requires exists i :: 0 <= i < |s.tracks| && s.tracks[i].id == trackId
    ensures var i := FirstIndex(s.tracks, TrackId, trackId);
      var ns := AddNote(s, trackId, data, now).0.tracks[i].notes;
      var n := ns[|ns| - 1];
      && (data.id.None? || data.id == Some("") ==> n.id == "note-" + Decimal(now))
      && (data.id.Some? && data.id != Some("") ==> n.id == data.id.value)
      && (data.pitch.None? || data.pitch == Some("") ==> n.pitch == "C4")
      && (data.pitch.Some? && data.pitch != Some("") ==> n.pitch == data.pitch.value)
      && (data.start.None? ==> n.start == 0.0) && (data.start.Some? ==> n.start == data.start.value)
      && (data.duration.None? ==> n.duration == 1.0)
      && (data.duration.Some? ==> n.duration == data.duration.value)
      && (data.velocity.None? ==> n.velocity == 100.0)
      && (data.velocity.Some? ==> n.velocity == data.velocity.value)
  {
  }

  /** Deleting the note just added, when its id was not in use on that track,
      restores the store. */
  lemma AddNoteThenDelete(s: Store, trackId: string, data: NoteFields, now: nat)
    requires AddNote(s, trackId, data, now).1.Some?
    requires var i := FirstIndex(s.tracks, TrackId, trackId);
      forall k :: 0 <= k < |s.tracks[i].notes| ==>
        s.tracks[i].notes[k].id != AddNote(s, trackId, data, now).1.value
    ensures DeleteNote(AddNote(s, trackId, data, now).0, trackId, AddNote(s, trackId, data, now).1.value) == s
  {
    var i := FirstIndex(s.tracks, TrackId, trackId);
    var (s1, nid) := AddNote(s, trackId, data, now);
    var t := s.tracks[i];
    var n := s1.tracks[i].notes[|t.notes|];
    assert s1.tracks == s.tracks[i := t.(notes := t.notes + [n])];
    FirstIndexStable(s.tracks, s1.tracks, TrackId, trackId, i);
    assert forall k :: 0 <= k < |t.notes| ==> NoteId(t.notes[k]) != nid.value;
    RemoveAppendedAbsent(t.notes, n, NoteId, nid.value);
    assert DeleteNote(s1, trackId, nid.value).tracks == s1.tracks[i := t];
  }

  /** Within one note list: merging an id-keeping update into the first note
      with that id twice is the same as once. */
  lemma MergeFirstNoteIdempotent(ns: seq<Note>, noteId: string, updates: NoteFields)
    requires updates.id.None? || updates.id == Some(noteId)
    requires FirstIndex(ns, NoteId, noteId) >= 0
    ensures var j := FirstIndex(ns, NoteId, noteId);
      var ns1 := ns[j := MergeNote(ns[j], updates)];
      && FirstIndex(ns1, NoteId, noteId) == j
      && ns1[j := MergeNote(ns1[j], updates)] == ns1
  {
    var j := FirstIndex(ns, NoteId, noteId);
    var ns1 := ns[j := MergeNote(ns[j], updates)];
    FirstIndexStable(ns, ns1, NoteId, noteId, j);
    assert MergeNote(ns1[j], updates) == ns1[j];
  }

  /** An update that keeps the note id is idempotent. */
  lemma UpdateNoteIdempotent(s: Store, trackId: string, noteId: string, updates: NoteFields)
    requires updates.id.None? || updates.id == Some(noteId)
    ensures UpdateNote(UpdateNote(s, trackId, noteId, updates), trackId, noteId, updates)
         == UpdateNote(s, trackId, noteId, updates)
  {
    var i := FirstIndex(s.tracks, TrackId, trackId);
    if i >= 0 {
      var s1 := UpdateNote(s, trackId, noteId, updates);
      FirstIndexStable(s.tracks, s1.tracks, TrackId, trackId, i);
      var ns := s.tracks[i].notes;
      if FirstIndex(ns, NoteId, noteId) >= 0 {
        MergeFirstNoteIdempotent(ns, noteId, updates);
        assert s1.tracks[i := s1.tracks[i]] == s1.tracks;
      }
    }
  }

  /** Deleting a note twice is the same as deleting it once. */
  lemma DeleteNoteIdempotent(s: Store, trackId: string, noteId: string)
    ensures DeleteNote(DeleteNote(s, trackId, noteId), trackId, noteId) == DeleteNote(s, trackId, noteId)
  {
    var i := FirstIndex(s.tracks, TrackId, trackId);
    if i >= 0 {
      var s1 := DeleteNote(s, trackId, noteId);
      FirstIndexStable(s.tracks, s1.tracks, TrackId, trackId, i);
      RemoveKeyIdempotent(s.tracks[i].notes, NoteId, noteId);
      assert s1.tracks[i].(notes := RemoveKey(s1.tracks[i].notes, NoteId, noteId)) == s1.tracks[i];
      assert s1.tracks[i := s1.tracks[i]] == s1.tracks;
    }
  }

  // ---------------------------------------------------------------------------
  // loadProject

  /** Loading replaces wholesale: the tracks and tempo afterwards depend only
      on the project data, and loading the same data again changes nothing. */
  lemma LoadProjectReplaces(s1: Store, s2: Store, p: ProjectData)
    ensures LoadProject(s1, p).tracks == LoadProject(s2, p).tracks
    ensures LoadProject(s1, p).tempo == LoadProject(s2, p).tempo
    ensures LoadProject(LoadProject(s1, p), p) == LoadProject(s1, p)
  {
  }
}

=== FILE: ui.dfy ===
/** The UI store (src/stores/ui.js): a zoom level clamped into [0.5, 3] and two
    boolean toggles. */
module Ui {

  datatype UiState = UiState(zoom: real, showMixer: bool, mobileMenuOpen: bool)

  const MinZoom: real := 0.5
  const MaxZoom: real := 3.0

  const InitialUi := UiState(1.0, true, false)

  function Max(a: real, b: real): real { if a >= b then a else b }
  function Min(a: real, b: real): real { if a <= b then a else b }

  /** `setZoom`: `Math.max(0.5, Math.min(3, level))`. */
  function SetZoom(u: UiState, level: real): (r: UiState)
    ensures MinZoom <= r.zoom <= MaxZoom
    ensures r.zoom == level <==> MinZoom <= level <= MaxZoom
    ensures level < MinZoom ==> r.zoom == MinZoom
    ensures level > MaxZoom ==> r.zoom == MaxZoom
    ensures r.showMixer == u.showMixer && r.mobileMenuOpen == u.mobileMenuOpen
  {
    u.(zoom := Max(MinZoom, Min(MaxZoom, level)))
  }

  /** `toggleMixer`. */
  function ToggleMixer(u: UiState): (r: UiState)
    ensures r.showMixer != u.showMixer
    ensures r.zoom == u.zoom && r.mobileMenuOpen == u.mobileMenuOpen
  {
    u.(showMixer := !u.showMixer)
  }

  /** `toggleMobileMenu`. */
  function ToggleMobileMenu(u: UiState): (r: UiState)
    ensures r.mobileMenuOpen != u.mobileMenuOpen
    ensures r.zoom == u.zoom && r.showMixer == u.showMixer
  {
    u.(mobileMenuOpen := !u.mobileMenuOpen)
  }

  /** The initial zoom already lies in range, so setting it is a no-op. */
  lemma InitialUiInRange()
    ensures MinZoom <= InitialUi.zoom <= MaxZoom
    ensures SetZoom(InitialUi, InitialUi.zoom) == InitialUi
  {
  }

  /** Setting the same level twice is setting it once; and re-setting the
      current zoom of any state reached by `setZoom` changes nothing. */
  lemma SetZoomIdempotent(u: UiState, level: real)
    ensures SetZoom(SetZoom(u, level), level) == SetZoom(u, level)
    ensures SetZoom(SetZoom(u, level), SetZoom(u, level).zoom) == SetZoom(u, level)
  {
  }

  /** Only the last of two zoom calls matters. */
  lemma SetZoomLastWins(u: UiState, a: real, b: real)
    ensures SetZoom(SetZoom(u, a), b) == SetZoom(u, b)
  {
  }

  /** Each toggle is an involution, and the two toggles commute. */
  lemma TogglesInvolutive(u: UiState)
    ensures ToggleMixer(ToggleMixer(u)) == u
    ensures ToggleMobileMenu(ToggleMobileMenu(u)) == u
    ensures ToggleMixer(ToggleMobileMenu(u)) == ToggleMobileMenu(ToggleMixer(u))
  {
  }
}
